=== FILE: README.md ===
# Inventory store of the equipment-control application

This project models the inventory core of a Flask application that tracks IT
equipment. Its database becomes an immutable `Store`, which holds:

- the product table, keyed by product id (name, quantity, category, description);
- the unit table, one row per physical unit, identified by its PAT tag and owned by one product;
- the withdrawal ledger, where each withdrawal holds its withdrawn items.

Each mutating route is a pure transition that returns `Result<Store, Error>`:

- `AddProduct.Add` is the add/restock route.
- `EditProduct.Edit` is the edit route.
- `Withdrawals.Withdraw` is the withdrawal route.

Requests are modelled one at a time, each as a single step from store to
store. An `Err` carries no store, so a rejected request commits nothing.
`Routes.Submit` puts the three routes behind the login gate. It returns the
store after the request, which is the old store whenever the request is
rejected. `Dashboard` computes the index page's figures. `Access` holds the
login gate and the administrator gate.

`Inventory.Valid` is the consistency that the schema and the routes' own
checks maintain. Every accepted add and withdrawal preserves it, and so does
an accepted edit when its new name is free:

- product ids lie below the next id;
- quantities are non-negative (the quantity column has no constraint; the
  routes' checks keep it so);
- every unit row has an existing owner;
- no tag appears on two unit rows (the tag column is unique);
- no two products share a name (the name column is unique).

Behaviour of the code that the model keeps, where it differs from what one
might expect:

- Restocking an existing name only raises its quantity. Category and
  description keep their old values (`AddProduct.AddRestocks`,
  `AddProduct.AddTwice`).
- The edit route compares the new quantity with the number of registered
  units, not with the current quantity.
- A withdrawal lowers the quantity but never removes unit rows. So after a
  withdrawal the quantity can be below the unit count. An edit then cannot
  set the quantity below the unit count, and setting it to exactly the unit
  count needs no new tags. `EditProduct.EditRestoresUnitCount` states this.
- The low-stock list holds products whose quantity equals the limit of 1
  exactly. A product with no stock at all is not listed.
- Inside one withdrawal batch, each line is checked against the stock that
  earlier lines have already reduced. `Withdrawals.ProcessSucceedsIff` proves
  that this line-by-line check accepts exactly the batches that are feasible
  as a whole: every kept line names a known product with a positive quantity,
  and no product's total demand exceeds its stock.

## Model

| member | source | states |
|---|---|---|
| `Inventory.DistinctIffNoCollapse` | app.py:208-210 | the form check that compares the size of the tag set with the number of tags rejects exactly the forms in which some tag repeats |
| `Inventory.UnitCount` | app.py:242 | the number of units registered for a product never exceeds the number of unit rows |
| `Inventory.FirstRegistered` | app.py:212 | the lookup returns the first unit row whose tag is among the submitted ones, or nothing when no row carries one of them |
| `Inventory.FirstRegisteredFindsRegistered` | app.py:212-213 | the lookup finds a row exactly when some submitted tag is already registered |
| `Inventory.AppendKeepsTagsUnique` | app.py:67 | appending rows whose tags differ pairwise and from every registered tag keeps each tag on at most one row |
| `Inventory.FindByName` | app.py:217 | the name search returns the smallest id in range carrying the name, and returns nothing only when no product in range carries it |
| `Inventory.ProductNamed` | app.py:217 | in a valid store, the lookup by name finds a product carrying that name, and finds none exactly when no product carries it |
| `Inventory.RegisterRecordsTags` | app.py:227-229 | registering tags keeps every earlier row, puts each new tag on a row owned by the product, and raises that product's unit count by the number of tags |
| `Inventory.RegisterFrame` | app.py:270-272 | registering tags for one product leaves every other product's record and unit count unchanged |
| `Inventory.RegisterPreservesValid` | app.py:56-67 | registering distinct, unregistered tags for an existing or fresh product, under a name no other product has, keeps the store consistent |
| `AddProduct.Target` | app.py:217-218 | the product that an add touches exists exactly when some product already carries the name; otherwise it is the next fresh id |
| `AddProduct.Add` | app.py:192-233 | an accepted add keeps the store consistent, leaves the withdrawal ledger alone, keeps every existing unit row and adds one unit row per submitted item |
| `AddProduct.AddOutcome` | app.py:200-215 | an add is accepted iff the quantity is positive, the tag count equals the quantity, the tags are distinct and none is registered; each failing check returns its own error, in the route's order; a clash names a submitted tag that is registered and the name of its owner |
| `AddProduct.AddRestocks` | app.py:217-220 | restocking a known name raises its quantity by exactly the submitted amount, keeps name, category and description, and creates no product |
| `AddProduct.AddCreates` | app.py:221-225 | an unknown name creates one product under the next id, with the submitted name, quantity, category and description |
| `AddProduct.AddRegisters` | app.py:212-229 | after an accepted add every submitted tag is registered on exactly one row, owned by the touched product, and earlier rows are kept |
| `AddProduct.AddRaisesUnitCount` | app.py:227-229 | an accepted add raises the touched product's unit count by exactly the submitted quantity |
| `AddProduct.AddLeavesOthers` | app.py:217-229 | an accepted add leaves every other product's record and unit count unchanged |
| `AddProduct.AddTwice` | app.py:217-225 | two accepted adds under one name sum both quantities onto the earlier stock; category and description stay those of whichever add created the product |
| `AddProduct.AddKeepsStockInStep` | app.py:217-229 | an accepted add keeps the gap between a product's quantity and its unit count unchanged; a newly created product has exactly one unit per item |
| `AddProduct.NoUnitsOfUnknown` | app.py:66 | a product id absent from the store owns no unit row |
| `AddProduct.AddedTagsStayTaken` | app.py:212-215 | once an add is accepted, a later add that carries one of its tags is rejected with the clash error, for any product |
| `EditProduct.Edit` | app.py:240-283 | an accepted edit leaves the ledger and the next id alone, keeps every existing unit row, and keeps the store consistent when the new name belongs to no other product |
| `EditProduct.EditOutcome` | app.py:241-268 | an edit is accepted iff the product exists, the new quantity is not below its unit count, and a positive difference comes with exactly that many distinct, unregistered tags; each failing check returns its own error, in the route's order |
| `EditProduct.EditApplies` | app.py:255-277 | after an accepted edit the product holds exactly the submitted fields; its unit count equals the new quantity; tags are added only for a positive difference, each registered to it; other products and their units are untouched |
| `EditProduct.EditRestoresUnitCount` | app.py:255-275 | after an accepted edit the product's quantity equals its number of registered units |
| `Withdrawals.Lines` | app.py:297-300 | the two submitted lists are paired position by position, up to the length of the shorter one |
| `Withdrawals.Kept` | app.py:300-302 | a line is processed exactly when it is one of the submitted lines and has no blank field |
| `Withdrawals.Process` | app.py:300-313 | a completed batch keeps every product and changes only its quantity; it never drives a quantity below zero; it fails only for an unknown product or an unacceptable quantity |
| `Withdrawals.Withdraw` | app.py:291-316 | an accepted withdrawal keeps the store consistent, leaves the units alone, and appends exactly one withdrawal, with status 'Pendente', by the given user, to the given destination and ticket |
| `Withdrawals.ProcessSucceedsIff` | app.py:300-313 | checking each line against the stock left by earlier lines accepts exactly the batches in which every kept line has a known product and a positive quantity and no product's total demand exceeds its stock |
| `Withdrawals.ProcessStock` | app.py:305-306 | a completed batch lowers each product's stock by exactly the sum of its lines' quantities and changes nothing else |
| `Withdrawals.ProcessItems` | app.py:305-309 | a completed batch records one item per kept line, in order, with that line's positive quantity and the product's name at withdrawal time |
| `Withdrawals.ProcessReportsFailingLine` | app.py:300-313 | a rejected batch reports its first failing line, every earlier line being skipped or within the stock left before it: an unknown product by its id, or a quantity outside the stock left by earlier lines, reported with the product's name, the requested quantity and that remaining stock |
| `Withdrawals.WithdrawOutcome` | app.py:291-316 | a withdrawal is accepted exactly when its zipped batch is feasible; a rejection reports the first line that fails against the running stock; when accepted, stock falls by each product's demand and never below zero, and one item is recorded per kept line |
| `Dashboard.CountProducts` | app.py:177 | the count of distinct products equals the number of products in the store |
| `Dashboard.TotalItems` | app.py:178 | the total stock equals the order-free sum of all product quantities, which is zero for an empty catalogue and never negative |
| `Dashboard.LowStockProducts` | app.py:179 | the low-stock list holds exactly the products whose quantity equals the limit of 1, each once, in id order |
| `Dashboard.AddRaisesTotal` | app.py:217-225 | an accepted add raises the total stock by the submitted quantity |
| `Dashboard.EditMovesTotal` | app.py:274-275 | an accepted edit changes the total stock by the new quantity minus the product's old quantity |
| `Dashboard.ProcessLowersTotal` | app.py:305-309 | a completed batch lowers the total stock by exactly the total quantity of the items it records |
| `Dashboard.WithdrawLowersTotal` | app.py:305-316 | an accepted withdrawal lowers the total stock by exactly the total quantity of its recorded items |
| `Access.LoginGate` | app.py:191 | the login gate admits exactly the logged-in users |
| `Access.AdminGate` | app.py:124 | the administrator gate admits exactly an authenticated user whose role is 'admin'; whoever it admits also passes the login gate |
| `Routes.Submit` | app.py:190-316 | a request from an anonymous user is rejected with the store unchanged; a logged-in user's add or edit is saved exactly when its route accepts it, with that route's store, and is otherwise rejected with that route's error; a logged-in user's withdrawal is saved exactly when its batch is feasible; any rejected request leaves the store as it was; every response keeps the store consistent and the existing unit rows; an accepted withdrawal is recorded as pending, in the logged-in user's name |
| `Routes.WithdrawRollsBack` | app.py:300-313 | a logged-in user's withdrawal that is not feasible as a whole is rejected, and the store, stock and ledger included, stays exactly as it was |

## Left out

- HTTP routing, templates, flashed messages and redirects are not modelled. `Inventory.ProductNotFound` stands for the HTTP 404 response that `get_or_404` aborts with (app.py:241, app.py:303), which flashes nothing. `Inventory.LoginRequired` stands for the redirect to the login page. Every other case of `Inventory.Error` stands for one flashed message.
- Form parsing is not modelled: `int(...)` on strings and `getlist`. Inputs arrive already typed. A blank field of the withdrawal form is `None`. A field that does not parse as an integer would raise in the route, and that case is not represented.
- The `.strip().title()` normalisation of names and categories, and `.strip()` of descriptions, destinations and tickets, are not modelled. They depend on Unicode library behaviour, so all strings are opaque.
- Database sessions, `flush`, `commit` and `rollback` are not modelled. An accepted operation's store is the committed state. A rejected one commits nothing.
- Concurrency is not modelled: requests are served one at a time, and each operation is one atomic step from store to store. `AddProduct.Add`, `Routes.Submit` and the claim that a rejected request commits nothing hold only under that sequential reading.
- The add route commits in two steps. `log_activity` commits the session (app.py:119), and the add route calls it (app.py:220, app.py:225) after raising the stock or creating the product but before inserting the unit rows (app.py:227-231). If the final commit fails, the raised stock or the new product stays committed without its units. This can happen when a concurrent request registers one of the same tags between the clash query (app.py:212) and the commit (app.py:231). `AddProduct.Add` models the sequential case, where the final commit succeeds. The edit and withdrawal routes call `log_activity` only after all their changes, so each commits at once.
- The edit route never checks whether the new name collides with another product. The database's unique constraint would then abort the commit. `EditProduct.Edit` does not represent that failure. Its consistency ensures applies only when the name is free.
- Routes.Submit: requires that an edit does not rename a product onto another product's name. The database's unique constraint would abort such a commit, and the model does not represent that failure.
- Product ids come from a counter, `nextId`, that stands for the database's autoincrement.
- The duplicate-tag query has no `ORDER BY`. The model reports the first unit row in insertion order.
- The low-stock query has no `ORDER BY` either. `Dashboard.LowStockProducts` lists products in id order.
- Timestamps (`get_local_time`), the activity log (`log_activity`), password hashing and login mechanics are not modelled. The requesting user is a `Session` parameter. The activity log's rows are not part of the modelled store; its commit is described under concurrency above.
- The index page's category filter, its category list and its ordering by name are presentation and are not modelled. Only the three aggregates are.
- PDF generation, `image_to_base64`, `inject_current_year` and the seeding of initial users are not modelled.
- Distribution, return, purchase-request and report routes are not modelled, because app.py elides them (app.py:287, app.py:320).
- Product deletion is not modelled, because app.py elides it (app.py:287, app.py:320).

=== FILE: access.dfy ===
/** Who may use the routes: every modelled route needs a logged-in user, and
    the administrator gate further demands the administrator role. */
module Access {

  /** The requesting user as the session presents it. */
  datatype Session = Anonymous | LoggedIn(username: string, role: string)

  /** The role string that the administrator gate accepts. */
  const AdminRole: string := "admin"

  /** Whether a guarded route runs or redirects to the index page with a warning. */
  datatype Gate = Admit | Deny

  /** The login gate in front of every modelled route. */
  function LoginGate(u: Session): (g: Gate)
    ensures g == Admit <==> u.LoggedIn?
  {
    match u
    case Anonymous => Deny
    case LoggedIn(_, _) => Admit
  }

  /** The administrator gate: it turns away anonymous users and every role
      other than the administrator one, and admits the rest. */
  function AdminGate(u: Session): (g: Gate)
    ensures g == Admit <==> u.LoggedIn? && u.role == AdminRole
    ensures g == Admit ==> LoginGate(u) == Admit
  {
    if !u.LoggedIn? || u.role != AdminRole then Deny else Admit
  }
}

=== FILE: add_product.dfy ===
/** The add/restock route: validate the submitted form, then either raise the
    stock of the product already carrying the name or create it, and register
    one unit per submitted tag. */
module AddProduct {
  import opened Wrappers
  import opened Inventory

  /** The typed fields of the add form. */
  datatype AddForm = AddForm(name: string, quantity: int, category: string, description: string, pats: seq<Tag>)

  /** The product an accepted add touches: the one already carrying the name,
      else the id the new product receives. */
  function Target(s: Store, name: string): (id: ProductId)
    requires Valid(s)
    ensures NameUsed(s.products, name) <==> id in s.products
    ensures id in s.products ==> s.products[id].name == name
    ensures id !in s.products ==> id == s.nextId
  {
    match ProductNamed(s, name)
    case Some(id) => id
    case None => s.nextId
  }

  /** The product record after an accepted add: a restock only raises the
      quantity, a creation takes every field from the form. */
  function Restocked(s: Store, id: ProductId, form: AddForm): Product {
    if id in s.products then s.products[id].(quantity := s.products[id].quantity + form.quantity)
    else Product(form.name, form.quantity, form.category, form.description)
  }

  /** The checks run in the route's order; the first failing one is reported. */
  function Add(s: Store, form: AddForm): (r: Result<Store, Error>)
    requires Valid(s)
    ensures r.Ok? ==> Valid(r.value)
    ensures r.Ok? ==> r.value.withdrawals == s.withdrawals
    ensures r.Ok? ==> |r.value.units| == |s.units| + form.quantity
    ensures r.Ok? ==> |s.units| <= |r.value.units| && forall i :: 0 <= i < |s.units| ==> r.value.units[i] == s.units[i]
  {
    if form.quantity <= 0 then Err(NonPositiveQuantity(form.quantity))
    else if |form.pats| != form.quantity then Err(TagCountMismatch(|form.pats|, form.quantity))
    else if |Elems(form.pats)| != |form.pats| then Err(RepeatedTagInForm)
    else match FirstRegistered(s.units, form.pats)
      case Some(i) => Err(TagAlreadyRegistered(s.units[i].tag, s.products[s.units[i].owner].name))
      case None =>
        var id := Target(s, form.name);
        DistinctIffNoCollapse(form.pats);
        FirstRegisteredFindsRegistered(s.units, form.pats);
        RegisterPreservesValid(s, id, Restocked(s, id, form), form.pats);
        Ok(Register(s, id, Restocked(s, id, form), form.pats))
  }

  /** The form is accepted exactly when the quantity is positive, one tag is
      given per unit, no tag repeats and no tag is registered yet; otherwise
      the first failing check names the error, and a clash names a registered
      tag of the form together with its owner. */
  lemma AddOutcome(s: Store, form: AddForm)
    requires Valid(s)
    ensures Add(s, form).Ok? <==>
      && form.quantity > 0
      && |form.pats| == form.quantity
      && Distinct(form.pats)
      && forall t :: t in form.pats ==> !Registered(s.units, t)
    ensures form.quantity <= 0 ==> Add(s, form) == Err(NonPositiveQuantity(form.quantity))
    ensures form.quantity > 0 && |form.pats| != form.quantity ==>
      Add(s, form) == Err(TagCountMismatch(|form.pats|, form.quantity))
    ensures form.quantity > 0 && |form.pats| == form.quantity && !Distinct(form.pats) ==>
      Add(s, form) == Err(RepeatedTagInForm)
    ensures form.quantity > 0 && |form.pats| == form.quantity && Distinct(form.pats)
            && (exists t :: t in form.pats && Registered(s.units, t)) ==>
      Add(s, form).Err? && Add(s, form).error.TagAlreadyRegistered?
    ensures Add(s, form).Err? && Add(s, form).error.TagAlreadyRegistered? ==>
      var e := Add(s, form).error;
      && e.tag in form.pats
      && exists i :: 0 <= i < |s.units| && s.units[i].tag == e.tag && s.products[s.units[i].owner].name == e.ownerName
  {
    DistinctIffNoCollapse(form.pats);
    FirstRegisteredFindsRegistered(s.units, form.pats);
  }

  /** Restocking a known name raises its quantity by exactly the submitted
      amount and keeps its name, category and description. */
  lemma AddRestocks(s: Store, form: AddForm, id: ProductId)
    requires Valid(s)
    requires Add(s, form).Ok?
    requires id in s.products && s.products[id].name == form.name
    ensures var p := Add(s, form).value.products;
      && p.Keys == s.products.Keys
      && p[id] == s.products[id].(quantity := s.products[id].quantity + form.quantity)
    ensures Add(s, form).value.nextId == s.nextId
  {
  }

  /** A new name creates a product under a fresh id with the submitted fields. */
  lemma AddCreates(s: Store, form: AddForm)
    requires Valid(s)
    requires Add(s, form).Ok?
    requires !NameUsed(s.products, form.name)
    ensures var r := Add(s, form).value;
      && s.nextId !in s.products
      && r.products.Keys == s.products.Keys + {s.nextId}
      && r.products[s.nextId] == Product(form.name, form.quantity, form.category, form.description)
      && r.nextId == s.nextId + 1
  {
  }

  /** An accepted add registers every submitted tag on exactly one row (tags
      stay globally unique), owned by the touched product, and keeps all
      earlier rows. */
  lemma AddRegisters(s: Store, form: AddForm)
    requires Valid(s)
    requires Add(s, form).Ok?
    ensures var r := Add(s, form).value; var id := Target(s, form.name);
      && r.units[..|s.units|] == s.units
      && (forall t :: t in form.pats ==> Registered(r.units, t))
      && (forall i :: 0 <= i < |r.units| && r.units[i].tag in form.pats ==> r.units[i].owner == id)
      && TagsUnique(r.units)
  {
  }

  /** An accepted add raises the touched product's unit count by the quantity. */
  lemma AddRaisesUnitCount(s: Store, form: AddForm)
    requires Valid(s)
    requires Add(s, form).Ok?
    ensures var r := Add(s, form).value; var id := Target(s, form.name);
      UnitCount(r.units, id) == UnitCount(s.units, id) + form.quantity
  {
    var id := Target(s, form.name);
    UnitCountAppend(s.units, NewUnits(id, form.pats), id);
    UnitCountNew(id, form.pats, id);
  }

  /** An accepted add leaves every other product and its units alone. */
  lemma AddLeavesOthers(s: Store, form: AddForm, other: ProductId)
    requires Valid(s)
    requires Add(s, form).Ok?
    requires other in s.products && other != Target(s, form.name)
    ensures var r := Add(s, form).value;
      && other in r.products
      && r.products[other] == s.products[other]
      && UnitCount(r.units, other) == UnitCount(s.units, other)
  {
    var id := Target(s, form.name);
    RegisterFrame(s, id, Restocked(s, id, form), form.pats, other);
  }

  /** Two accepted adds under one name accumulate both quantities, and the
      category and description are those of whichever add created the
      product: a restock never overwrites them. */
  lemma AddTwice(s: Store, f1: AddForm, f2: AddForm)
    requires Valid(s)
    requires f1.name == f2.name
    requires Add(s, f1).Ok?
    requires Add(Add(s, f1).value, f2).Ok?
    ensures var id := Target(s, f1.name);
      var p := Add(Add(s, f1).value, f2).value.products;
      var before := if id in s.products then s.products[id].quantity else 0;
      && id in p
      && p[id].quantity == before + f1.quantity + f2.quantity
      && p[id].category == (if id in s.products then s.products[id].category else f1.category)
      && p[id].description == (if id in s.products then s.products[id].description else f1.description)
  {
  }

  /** An accepted add keeps the touched product's stock in step with its
      units: the gap between quantity and registered units is unchanged, and
      a newly created product starts with exactly one unit per item. */
  lemma AddKeepsStockInStep(s: Store, form: AddForm)
    requires Valid(s)
    requires Add(s, form).Ok?
    ensures var r := Add(s, form).value; var id := Target(s, form.name);
      && id in r.products
      && r.products[id].quantity - UnitCount(r.units, id) ==
           (if id in s.products then s.products[id].quantity - UnitCount(s.units, id) else 0)
  {
    var id := Target(s, form.name);
    AddRaisesUnitCount(s, form);
    if id !in s.products {
      NoUnitsOfUnknown(s, id);
    }
  }

  /** A product id the store does not know owns no unit. */
  lemma {:induction false} NoUnitsOfUnknown(s: Store, id: ProductId)
    requires forall i :: 0 <= i < |s.units| ==> s.units[i].owner in s.products
    requires id !in s.products
    ensures UnitCount(s.units, id) == 0
    decreases |s.units|
  {
    if |s.units| > 0 {
      NoUnitsOfUnknown(s.(units := s.units[..|s.units| - 1]), id);
    }
  }

  /** Once an add is accepted, none of its tags can be registered again, for
      this product or any other: a later add carrying one of them, whose other
      checks pass, is turned away with the clash. */
  lemma AddedTagsStayTaken(s: Store, f1: AddForm, f2: AddForm, t: Tag)
    requires Valid(s)
    requires Add(s, f1).Ok?
    requires t in f1.pats && t in f2.pats
    requires f2.quantity > 0 && |f2.pats| == f2.quantity && Distinct(f2.pats)
    ensures Add(Add(s, f1).value, f2).Err?
    ensures Add(Add(s, f1).value, f2).error.TagAlreadyRegistered?
  {
    var s1 := Add(s, f1).value;
    AddRegisters(s, f1);
    assert Registered(s1.units, t);
    DistinctIffNoCollapse(f2.pats);
    FirstRegisteredFindsRegistered(s1.units, f2.pats);
    assert FirstRegistered(s1.units, f2.pats).Some?;
  }
}

=== FILE: dashboard.dfy ===
/** The figures of the index page: the number of distinct products, the
    total stock across them, and the products at the low-stock limit; with
    how each accepted operation moves the total. */
module Dashboard {
  import opened Inventory
  import opened AddProduct
  import opened EditProduct
  import opened Withdrawals

  /** The stock level the index page flags as low. */
  const LowStockLimit: int := 1

  /** The sum of the quantities of the products in `keys`, in no particular order. */
  ghost function SumOver(products: map<ProductId, Product>, keys: set<ProductId>): int
    requires keys <= products.Keys
    decreases keys
  {
    if keys == {} then 0
    else var id :| id in keys; products[id].quantity + SumOver(products, keys - {id})
  }

  /** The total stock: the sum of every product's quantity. */
  ghost function TotalOf(products: map<ProductId, Product>): int {
    SumOver(products, products.Keys)
  }

  /** The products whose id lies below `n`. */
  ghost function KeysBelow(products: map<ProductId, Product>, n: nat): set<ProductId> {
    set id | id in products && id < n
  }

  lemma {:induction false} SumOverRemove(products: map<ProductId, Product>, keys: set<ProductId>, x: ProductId)
    requires keys <= products.Keys && x in keys
    ensures SumOver(products, keys) == products[x].quantity + SumOver(products, keys - {x})
    decreases keys
  {
    var y :| y in keys && SumOver(products, keys) == products[y].quantity + SumOver(products, keys - {y});
    if y != x {
      SumOverRemove(products, keys - {y}, x);
      SumOverRemove(products, keys - {x}, y);
      assert keys - {y} - {x} == keys - {x} - {y};
    }
  }

  lemma {:induction false} SumOverAgree(p1: map<ProductId, Product>, p2: map<ProductId, Product>, keys: set<ProductId>)
    requires keys <= p1.Keys && keys <= p2.Keys
    requires forall id :: id in keys ==> p1[id].quantity == p2[id].quantity
    ensures SumOver(p1, keys) == SumOver(p2, keys)
    decreases keys
  {
    if keys != {} {
      var x :| x in keys;
      SumOverRemove(p1, keys, x);
      SumOverRemove(p2, keys, x);
      SumOverAgree(p1, p2, keys - {x});
    }
  }

  lemma {:induction false} SumOverNonNegative(products: map<ProductId, Product>, keys: set<ProductId>)
    requires keys <= products.Keys
    requires forall id :: id in keys ==> products[id].quantity >= 0
    ensures SumOver(products, keys) >= 0
    decreases keys
  {
    if keys != {} {
      var x :| x in keys;
      SumOverRemove(products, keys, x);
      SumOverNonNegative(products, keys - {x});
    }
  }

  /** Replacing one product's record moves the total by the change in its quantity. */
  lemma TotalUpdate(products: map<ProductId, Product>, id: ProductId, p: Product)
    ensures TotalOf(products[id := p]) ==
      TotalOf(products) - (if id in products then products[id].quantity else 0) + p.quantity
  {
    var after := products[id := p];
    var rest := products.Keys - {id};
    SumOverRemove(after, after.Keys, id);
    assert after.Keys - {id} == rest;
    SumOverAgree(products, after, rest);
    if id in products {
      SumOverRemove(products, products.Keys, id);
    } else {
      assert products.Keys == rest;
    }
  }

  // ---------------------------------------------------------------------
  // The index page's figures

  /** The number of distinct products. */
  method CountProducts(s: Store) returns (n: nat)
    requires Valid(s)
    ensures n == |s.products|
  {
    n := 0;
    var i := 0;
    while i < s.nextId
      invariant 0 <= i <= s.nextId
      invariant n == |KeysBelow(s.products, i)|
    {
      if i in s.products {
        assert KeysBelow(s.products, i + 1) == KeysBelow(s.products, i) + {i};
        n := n + 1;
      } else {
        assert KeysBelow(s.products, i + 1) == KeysBelow(s.products, i);
      }
      i := i + 1;
    }
    assert KeysBelow(s.products, s.nextId) == s.products.Keys;
  }

  /** The total number of items in stock; zero when there are no products. */
  method TotalItems(s: Store) returns (total: int)
    requires Valid(s)
    ensures total == TotalOf(s.products)
    ensures total >= 0
  {
    total := 0;
    var i := 0;
    while i < s.nextId
      invariant 0 <= i <= s.nextId
      invariant total == SumOver(s.products, KeysBelow(s.products, i))
    {
      var below := KeysBelow(s.products, i);
      var next := KeysBelow(s.products, i + 1);
      if i in s.products {
        assert next == below + {i};
        SumOverRemove(s.products, next, i);
        assert next - {i} == below;
        total := total + s.products[i].quantity;
      } else {
        assert next == below;
      }
      i := i + 1;
    }
    assert KeysBelow(s.products, s.nextId) == s.products.Keys;
    SumOverNonNegative(s.products, s.products.Keys);
  }

  /** The products whose stock equals the low-stock limit exactly, in id order. */
  method LowStockProducts(s: Store) returns (ids: seq<ProductId>)
    requires Valid(s)
    ensures forall id :: id in ids <==> id in s.products && s.products[id].quantity == LowStockLimit
    ensures forall a, b :: 0 <= a < b < |ids| ==> ids[a] < ids[b]
  {
    ids := [];
    var i := 0;
    while i < s.nextId
      invariant 0 <= i <= s.nextId
      invariant forall id :: id in ids <==> id < i && id in s.products && s.products[id].quantity == LowStockLimit
      invariant forall a, b :: 0 <= a < b < |ids| ==> ids[a] < ids[b]
      invariant forall a :: 0 <= a < |ids| ==> ids[a] < i
    {
      if i in s.products && s.products[i].quantity == LowStockLimit {
        ids := ids + [i];
      }
      i := i + 1;
    }
  }

  // ---------------------------------------------------------------------
  // How the operations move the total

  /** An accepted add raises the total stock by the submitted quantity. */
  lemma AddRaisesTotal(s: Store, form: AddForm)
    requires Valid(s)
    requires Add(s, form).Ok?
    ensures TotalOf(Add(s, form).value.products) == TotalOf(s.products) + form.quantity
  {
    var id := Target(s, form.name);
    TotalUpdate(s.products, id, Restocked(s, id, form));
  }

  /** An accepted edit moves the total stock from the product's old quantity to its new one. */
  lemma EditMovesTotal(s: Store, form: EditForm)
    requires Valid(s)
    requires Edit(s, form).Ok?
    ensures form.id in s.products
    ensures TotalOf(Edit(s, form).value.products) == TotalOf(s.products) - s.products[form.id].quantity + form.quantity
  {
    EditApplies(s, form);
    TotalUpdate(s.products, form.id, Edited(form));
    assert Edit(s, form).value.products == s.products[form.id := Edited(form)];
  }

  /** The total quantity of a list of withdrawn items. */
  function ItemsTotal(items: seq<WithdrawnItem>): int {
    if |items| == 0 then 0 else items[0].quantity + ItemsTotal(items[1..])
  }

  lemma {:induction false} ProcessLowersTotal(products: map<ProductId, Product>, lines: seq<Line>)
    requires Process(products, lines).Ok?
    ensures var b := Process(products, lines).value;
      TotalOf(b.products) == TotalOf(products) - ItemsTotal(b.items)
    decreases |lines|
  {
    if |lines| > 0 {
      var rest := lines[1..];
      if Skipped(lines[0]) {
        ProcessLowersTotal(products, rest);
      } else {
        var id := lines[0].productId.value;
        var q := lines[0].quantity.value;
        var p := products[id];
        var next := products[id := p.(quantity := p.quantity - q)];
        ProcessLowersTotal(next, rest);
        TotalUpdate(products, id, p.(quantity := p.quantity - q));
        var items := Process(products, lines).value.items;
        var tail := Process(next, rest).value.items;
        assert items == [WithdrawnItem(p.name, q)] + tail;
        assert items[1..] == tail;
      }
    }
  }

  /** An accepted withdrawal lowers the total stock by exactly the quantity it records. */
  lemma WithdrawLowersTotal(s: Store, responsible: string, form: WithdrawalForm)
    requires Valid(s)
    requires Withdraw(s, responsible, form).Ok?
    ensures var r := Withdraw(s, responsible, form).value;
      TotalOf(r.products) == TotalOf(s.products) - ItemsTotal(r.withdrawals[|s.withdrawals|].items)
  {
    ProcessLowersTotal(s.products, Lines(form));
  }
}

=== FILE: edit_product.dfy ===
/** The edit route: a product's new quantity is compared with the number of
    units already registered for it; an increase must come with exactly that
    many new tags, and the name, quantity, category and description are then
    overwritten. */
module EditProduct {
  import opened Wrappers
  import opened Inventory

  /** The typed fields of the edit form for product `id`. */
  datatype EditForm = EditForm(id: ProductId, name: string, quantity: int, category: string, description: string, pats: seq<Tag>)

  function Edited(form: EditForm): Product {
    Product(form.name, form.quantity, form.category, form.description)
  }

  /** The checks run in the route's order; the first failing one is reported.
      When the quantity does not exceed the registered units, submitted tags
      are ignored. */
  function Edit(s: Store, form: EditForm): (r: Result<Store, Error>)
    requires Valid(s)
    ensures r.Ok? ==> r.value.withdrawals == s.withdrawals && r.value.nextId == s.nextId
    ensures r.Ok? && NameFreeFor(s, form.id, form.name) ==> Valid(r.value)
    ensures r.Ok? ==> |r.value.units| >= |s.units| && r.value.units[..|s.units|] == s.units
  {
    if form.id !in s.products then Err(ProductNotFound(form.id))
    else
      var existing := UnitCount(s.units, form.id);
      if form.quantity < existing then Err(QuantityBelowUnits(form.quantity, existing))
      else if form.quantity == existing then
        Ok(Register(s, form.id, Edited(form), []))
      else if |form.pats| != form.quantity - existing then
        Err(TagCountMismatch(|form.pats|, form.quantity - existing))
      else if |Elems(form.pats)| != |form.pats| then Err(RepeatedTagInForm)
      else match FirstRegistered(s.units, form.pats)
        case Some(i) => Err(TagAlreadyRegistered(s.units[i].tag, s.products[s.units[i].owner].name))
        case None =>
          DistinctIffNoCollapse(form.pats);
          FirstRegisteredFindsRegistered(s.units, form.pats);
          assert NameFreeFor(s, form.id, form.name) ==> CanRegister(s, form.id, Edited(form), form.pats);
          RegisterValidIfNameFree(s, form.id, Edited(form), form.pats);
          Ok(Register(s, form.id, Edited(form), form.pats))
  }

  lemma RegisterValidIfNameFree(s: Store, id: ProductId, product: Product, pats: seq<Tag>)
    ensures CanRegister(s, id, product, pats) ==> Valid(Register(s, id, product, pats))
  {
    if CanRegister(s, id, product, pats) {
      RegisterPreservesValid(s, id, product, pats);
    }
  }

  /** The tags that an accepted edit of `form` registers. */
  function AddedTags(s: Store, form: EditForm): seq<Tag>
    requires form.id in s.products
  {
    if form.quantity > UnitCount(s.units, form.id) then form.pats else []
  }

  /** The edit is accepted exactly when the product exists, the new quantity
      does not fall below its registered units, and a positive difference is
      covered by that many pairwise different, unregistered tags; otherwise
      the first failing check names the error. */
  lemma EditOutcome(s: Store, form: EditForm)
    requires Valid(s)
    ensures Edit(s, form).Ok? <==>
      && form.id in s.products
      && form.quantity >= UnitCount(s.units, form.id)
      && (form.quantity > UnitCount(s.units, form.id) ==>
            && |form.pats| == form.quantity - UnitCount(s.units, form.id)
            && Distinct(form.pats)
            && forall t :: t in form.pats ==> !Registered(s.units, t))
    ensures form.id !in s.products ==> Edit(s, form) == Err(ProductNotFound(form.id))
    ensures form.id in s.products && form.quantity < UnitCount(s.units, form.id) ==>
      Edit(s, form) == Err(QuantityBelowUnits(form.quantity, UnitCount(s.units, form.id)))
    ensures form.id in s.products && form.quantity > UnitCount(s.units, form.id)
            && |form.pats| != form.quantity - UnitCount(s.units, form.id) ==>
      Edit(s, form) == Err(TagCountMismatch(|form.pats|, form.quantity - UnitCount(s.units, form.id)))
    ensures form.id in s.products && form.quantity > UnitCount(s.units, form.id)
            && |form.pats| == form.quantity - UnitCount(s.units, form.id) && !Distinct(form.pats) ==>
      Edit(s, form) == Err(RepeatedTagInForm)
    ensures form.id in s.products && form.quantity > UnitCount(s.units, form.id)
            && |form.pats| == form.quantity - UnitCount(s.units, form.id) && Distinct(form.pats)
            && (exists t :: t in form.pats && Registered(s.units, t)) ==>
      Edit(s, form).Err? && Edit(s, form).error.TagAlreadyRegistered?
    ensures Edit(s, form).Err? && Edit(s, form).error.TagAlreadyRegistered? ==>
      var e := Edit(s, form).error;
      && e.tag in form.pats
      && exists i :: 0 <= i < |s.units| && s.units[i].tag == e.tag && s.products[s.units[i].owner].name == e.ownerName
  {
    DistinctIffNoCollapse(form.pats);
    FirstRegisteredFindsRegistered(s.units, form.pats);
  }

  /** An accepted edit registers its added tags under the edited record. */
  lemma EditRegisters(s: Store, form: EditForm)
    requires Valid(s)
    requires Edit(s, form).Ok?
    ensures form.id in s.products
    ensures Edit(s, form).value == Register(s, form.id, Edited(form), AddedTags(s, form))
  {
  }

  /** After an accepted edit the product holds exactly the submitted fields,
      its registered units number exactly the new quantity, the new tags are
      registered to it, earlier rows are kept (no rows at all are added when
      the quantity equals the unit count), and every other product and its
      units are untouched. */
  lemma EditApplies(s: Store, form: EditForm)
    requires Valid(s)
    requires Edit(s, form).Ok?
    ensures var r := Edit(s, form).value;
      && form.id in s.products
      && r.products.Keys == s.products.Keys
      && r.products[form.id] == Product(form.name, form.quantity, form.category, form.description)
      && UnitCount(r.units, form.id) == form.quantity
      && r.units == s.units + NewUnits(form.id, AddedTags(s, form))
      && (forall t :: t in AddedTags(s, form) ==> Registered(r.units, t))
      && (forall i :: 0 <= i < |r.units| && r.units[i].tag in AddedTags(s, form) ==> r.units[i].owner == form.id)
      && (forall other :: other in s.products && other != form.id ==>
            r.products[other] == s.products[other]
            && UnitCount(r.units, other) == UnitCount(s.units, other))
  {
    var added := AddedTags(s, form);
    EditRegisters(s, form);
    var r := Register(s, form.id, Edited(form), added);
    UnitCountAppend(s.units, NewUnits(form.id, added), form.id);
    UnitCountNew(form.id, added, form.id);
    forall t | t in added
      ensures Registered(r.units, t)
    {
      var k :| 0 <= k < |added| && added[k] == t;
      assert r.units[|s.units| + k].tag == t;
    }
    forall other | other in s.products && other != form.id
      ensures r.products[other] == s.products[other] && UnitCount(r.units, other) == UnitCount(s.units, other)
    {
      RegisterFrame(s, form.id, Edited(form), added, other);
    }
  }

  /** The edit leaves the product's quantity in step with its registered
      units, whatever withdrawals had done to it before. */
  lemma EditRestoresUnitCount(s: Store, form: EditForm)
    requires Valid(s)
    requires Edit(s, form).Ok?
    ensures var r := Edit(s, form).value;
      r.products[form.id].quantity == UnitCount(r.units, form.id)
  {
    EditApplies(s, form);
  }
}

=== FILE: inventory.dfy ===
/** The persistent state behind the inventory routes of the application:
    products, the physical units registered for them (each identified by its
    PAT tag) and the withdrawal ledger, together with the invariants the
    database schema maintains over them. */
module Inventory {
  import opened Wrappers

  type ProductId = nat
  type Tag = string

  /** A row of the product table. */
  datatype Product = Product(name: string, quantity: int, category: string, description: string)

  /** A row of the unit table: one physical unit of `owner`, identified by its PAT tag. */
  datatype Unit = Unit(owner: ProductId, tag: Tag)

  /** One line of a withdrawal: a snapshot of the product's name and the amount taken. */
  datatype WithdrawnItem = WithdrawnItem(productName: string, quantity: int)

  /** The status every new withdrawal starts with. */
  const PendingStatus: string := "Pendente"

  /** A row of the withdrawal table with its line items. */
  datatype Withdrawal = Withdrawal(
    responsible: string,
    destination: string,
    ticket: string,
    status: string,
    items: seq<WithdrawnItem>)

  /** The whole database as the three routes see it; `nextId` is the id the
      next created product receives. */
  datatype Store = Store(
    products: map<ProductId, Product>,
    units: seq<Unit>,
    withdrawals: seq<Withdrawal>,
    nextId: ProductId)

  /** Why a request is turned away. `ProductNotFound` stands for the 404 page
      that `get_or_404` aborts with, `LoginRequired` for the redirect to the
      login page, and every other case for one flashed error message. */
  datatype Error =
    | NonPositiveQuantity(quantity: int)
    | TagCountMismatch(given: nat, expected: int)
    | RepeatedTagInForm
    | TagAlreadyRegistered(tag: Tag, ownerName: string)
    | QuantityBelowUnits(requested: int, registered: nat)
    | ProductNotFound(id: ProductId)
    | InvalidWithdrawal(productName: string, requested: int, available: int)
    | LoginRequired

  /** The tag column, row by row. */
  function Tags(units: seq<Unit>): (tags: seq<Tag>)
    ensures |tags| == |units|
    ensures forall i :: 0 <= i < |units| ==> tags[i] == units[i].tag
  {
    seq(|units|, i requires 0 <= i < |units| => units[i].tag)
  }

  /** No tag appears on two unit rows: the unique constraint on the tag column. */
  ghost predicate TagsUnique(units: seq<Unit>) {
    Distinct(Tags(units))
  }

  /** No two products share a name: the unique constraint on the name column. */
  ghost predicate NamesUnique(products: map<ProductId, Product>) {
    forall a, b :: a in products && b in products && a != b ==> products[a].name != products[b].name
  }

  /** No product holds a negative quantity. */
  ghost predicate NonNegative(products: map<ProductId, Product>) {
    forall id :: id in products ==> products[id].quantity >= 0
  }

  /** No product other than `id` carries `name`: what the name column's
      unique constraint demands of a rename. */
  ghost predicate NameFreeFor(s: Store, id: ProductId, name: string) {
    forall other :: other in s.products && other != id ==> s.products[other].name != name
  }

  /** The consistency the schema and the routes maintain. */
  ghost predicate Valid(s: Store) {
    && (forall id :: id in s.products ==> id < s.nextId)
    && NonNegative(s.products)
    && (forall i :: 0 <= i < |s.units| ==> s.units[i].owner in s.products)
    && TagsUnique(s.units)
    && NamesUnique(s.products)
  }

  /** Some unit row carries tag `t`. */
  ghost predicate Registered(units: seq<Unit>, t: Tag) {
    exists i :: 0 <= i < |units| && units[i].tag == t
  }

  /** Some product carries `name`. */
  ghost predicate NameUsed(products: map<ProductId, Product>, name: string) {
    exists id :: id in products && products[id].name == name
  }

  // ---------------------------------------------------------------------
  // Sequences without repetition

  predicate Distinct<T(==)>(s: seq<T>) {
    forall i, j :: 0 <= i < j < |s| ==> s[i] != s[j]
  }

  /** The set of the elements of `s`, as Python's `set(...)` builds it. */
  function Elems<T(==)>(s: seq<T>): set<T> {
    set x | x in s
  }

  /** Collapsing a sequence into a set never grows it, and keeps its size
      exactly when no element repeats: the form check comparing the size of the
      set of submitted tags with the number of submitted tags
      rejects precisely the forms with a repeated tag. */
  lemma {:induction false} DistinctIffNoCollapse<T>(s: seq<T>)
    ensures |Elems(s)| <= |s|
    ensures |Elems(s)| == |s| <==> Distinct(s)
  {
    if |s| == 0 {
      assert Elems(s) == {};
    } else {
      var t := s[1..];
      DistinctIffNoCollapse(t);
      assert s == [s[0]] + t;
      assert Elems(s) == {s[0]} + Elems(t);
      if s[0] in t {
        assert Elems(s) == Elems(t);
        var k :| 0 <= k < |t| && t[k] == s[0];
        assert s[k + 1] == s[0];
        assert !Distinct(s);
      } else {
        assert |Elems(s)| == |Elems(t)| + 1;
        if Distinct(t) {
          forall i, j | 0 <= i < j < |s|
            ensures s[i] != s[j]
          {
            if i == 0 {
              assert s[j] == t[j - 1];
            } else {
              assert s[i] == t[i - 1] && s[j] == t[j - 1];
            }
          }
        } else {
          var i, j :| 0 <= i < j < |t| && t[i] == t[j];
          assert s[i + 1] == s[j + 1];
        }
      }
    }
  }

  // ---------------------------------------------------------------------
  // Unit rows

  /** The rows registering one unit of `id` per tag, in form order. */
  function NewUnits(id: ProductId, pats: seq<Tag>): (r: seq<Unit>)
    ensures |r| == |pats|
    ensures forall k :: 0 <= k < |pats| ==> r[k] == Unit(id, pats[k])
  {
    seq(|pats|, k requires 0 <= k < |pats| => Unit(id, pats[k]))
  }

  /** The number of units registered for product `id`. */
  function UnitCount(units: seq<Unit>, id: ProductId): (n: nat)
    ensures n <= |units|
  {
    if |units| == 0 then 0
    else UnitCount(units[..|units| - 1], id) + (if units[|units| - 1].owner == id then 1 else 0)
  }

  lemma {:induction false} UnitCountAppend(a: seq<Unit>, b: seq<Unit>, id: ProductId)
    ensures UnitCount(a + b, id) == UnitCount(a, id) + UnitCount(b, id)
    decreases |b|
  {
    if |b| == 0 {
      assert a + b == a;
    } else {
      var b' := b[..|b| - 1];
      assert (a + b)[..|a + b| - 1] == a + b';
      UnitCountAppend(a, b', id);
    }
  }

  /** Registering `pats` for `id` adds one unit per tag to `id` and none to anyone else. */
  lemma {:induction false} UnitCountNew(id: ProductId, pats: seq<Tag>, other: ProductId)
    ensures UnitCount(NewUnits(id, pats), other) == if other == id then |pats| else 0
    decreases |pats|
  {
    if |pats| > 0 {
      var p' := pats[..|pats| - 1];
      assert NewUnits(id, pats)[..|pats| - 1] == NewUnits(id, p');
      UnitCountNew(id, p', other);
    }
  }

  /** The index of the first unit row whose tag is among `pats`: the row the
      duplicate-tag query reports. */
  function FirstRegistered(units: seq<Unit>, pats: seq<Tag>): (r: Option<nat>)
    ensures r.Some? ==> r.value < |units| && units[r.value].tag in pats
    ensures r.Some? ==> forall j :: 0 <= j < r.value ==> units[j].tag !in pats
    ensures r.None? ==> forall j :: 0 <= j < |units| ==> units[j].tag !in pats
  {
    if |units| == 0 then None
    else if units[0].tag in pats then Some(0)
    else match FirstRegistered(units[1..], pats)
      case None => None
      case Some(i) => Some(i + 1)
  }

  /** The query finds a row exactly when some submitted tag is already registered. */
  lemma FirstRegisteredFindsRegistered(units: seq<Unit>, pats: seq<Tag>)
    ensures FirstRegistered(units, pats).None? <==> forall t :: t in pats ==> !Registered(units, t)
  {
  }

  /** Appending rows for fresh, pairwise different tags keeps every tag on
      at most one row. */
  lemma AppendKeepsTagsUnique(units: seq<Unit>, added: seq<Unit>)
    requires TagsUnique(units)
    requires TagsUnique(added)
    requires forall k :: 0 <= k < |added| ==> !Registered(units, added[k].tag)
    ensures TagsUnique(units + added)
  {
  }

  lemma NewUnitsTagsUnique(id: ProductId, pats: seq<Tag>)
    requires Distinct(pats)
    ensures TagsUnique(NewUnits(id, pats))
  {
  }

  // ---------------------------------------------------------------------
  // Products

  /** The smallest product id in `[from, bound)` carrying `name`. */
  function FindByName(products: map<ProductId, Product>, name: string, from: nat, bound: nat): (r: Option<ProductId>)
    ensures r.Some? ==> from <= r.value < bound && r.value in products && products[r.value].name == name
    ensures r.Some? ==> forall id :: from <= id < r.value && id in products ==> products[id].name != name
    ensures r.None? ==> forall id :: from <= id < bound && id in products ==> products[id].name != name
    decreases bound - from
  {
    if from >= bound then None
    else if from in products && products[from].name == name then Some(from)
    else FindByName(products, name, from + 1, bound)
  }

  /** The product carrying `name`, if any: the lookup by name of the add route. */
  function ProductNamed(s: Store, name: string): (r: Option<ProductId>)
    requires Valid(s)
    ensures r.Some? ==> r.value in s.products && s.products[r.value].name == name
    ensures r.None? <==> !NameUsed(s.products, name)
  {
    FindByName(s.products, name, 0, s.nextId)
  }

  // ---------------------------------------------------------------------
  // Registering units

  /** The store after product `id` becomes `product` and one unit row per tag
      of `pats` is registered for it; a fresh id advances `nextId`. */
  function Register(s: Store, id: ProductId, product: Product, pats: seq<Tag>): Store {
    Store(
      s.products[id := product],
      s.units + NewUnits(id, pats),
      s.withdrawals,
      if id in s.products then s.nextId else id + 1)
  }

  /** What both the add and the edit route have established before they
      register units: the target is an existing or the next fresh id, its new
      name collides with no other product, and the tags are pairwise
      different and all unregistered. */
  ghost predicate CanRegister(s: Store, id: ProductId, product: Product, pats: seq<Tag>) {
    && Valid(s)
    && (id in s.products || id == s.nextId)
    && product.quantity >= 0
    && NameFreeFor(s, id, product.name)
    && Distinct(pats)
    && (forall t :: t in pats ==> !Registered(s.units, t))
  }

  /** Registration keeps earlier rows, records every new tag on a row owned
      by `id`, and raises `id`'s unit count by the number of tags. */
  lemma RegisterRecordsTags(s: Store, id: ProductId, product: Product, pats: seq<Tag>)
    requires CanRegister(s, id, product, pats)
    ensures var r := Register(s, id, product, pats);
      && r.units[..|s.units|] == s.units
      && (forall t :: t in pats ==> Registered(r.units, t))
      && (forall i :: 0 <= i < |r.units| && r.units[i].tag in pats ==> r.units[i].owner == id)
      && UnitCount(r.units, id) == UnitCount(s.units, id) + |pats|
  {
    var r := Register(s, id, product, pats);
    var added := NewUnits(id, pats);
    assert r.units == s.units + added;
    assert r.units[..|s.units|] == s.units;
    forall t | t in pats
      ensures Registered(r.units, t)
    {
      var k :| 0 <= k < |pats| && pats[k] == t;
      assert r.units[|s.units| + k].tag == t;
    }
    forall i | 0 <= i < |r.units| && r.units[i].tag in pats
      ensures r.units[i].owner == id
    {
    }
    UnitCountAppend(s.units, added, id);
    UnitCountNew(id, pats, id);
  }

  /** Registration leaves every other product and its unit count alone. */
  lemma RegisterFrame(s: Store, id: ProductId, product: Product, pats: seq<Tag>, other: ProductId)
    requires other != id
    ensures var r := Register(s, id, product, pats);
      && (other in r.products <==> other in s.products)
      && (other in s.products ==> r.products[other] == s.products[other])
      && UnitCount(r.units, other) == UnitCount(s.units, other)
  {
    UnitCountAppend(s.units, NewUnits(id, pats), other);
    UnitCountNew(id, pats, other);
  }

  lemma RegisterPreservesValid(s: Store, id: ProductId, product: Product, pats: seq<Tag>)
    requires CanRegister(s, id, product, pats)
    ensures Valid(Register(s, id, product, pats))
  {
    var r := Register(s, id, product, pats);
    var added := NewUnits(id, pats);
    assert r.units == s.units + added;
    NewUnitsTagsUnique(id, pats);
    AppendKeepsTagsUnique(s.units, added);
    forall i | 0 <= i < |r.units|
      ensures r.units[i].owner in r.products
    {
      if i < |s.units| {
        assert r.units[i] == s.units[i];
      } else {
        assert r.units[i] == added[i - |s.units|];
      }
    }
  }
}

=== FILE: routes.dfy ===
/** The three mutating routes behind their login gate: each request either
    commits its operation's new store or is turned away leaving the store
    exactly as it was. */
module Routes {
  import opened Wrappers
  import opened Inventory
  import opened Access
  import opened AddProduct
  import opened EditProduct
  import opened Withdrawals

  datatype Request =
    | AddRequest(add: AddForm)
    | EditRequest(edit: EditForm)
    | WithdrawRequest(withdrawal: WithdrawalForm)

  datatype Outcome = Saved | Rejected(error: Error)

  /** The store after the request, and what the user is told. */
  datatype Response = Response(store: Store, outcome: Outcome)

  /** The commit or the rollback of an operation's result. */
  function Commit(s: Store, r: Result<Store, Error>): Response {
    match r
    case Ok(next) => Response(next, Saved)
    case Err(e) => Response(s, Rejected(e))
  }

  /** Run one request from user `u`: an anonymous user is turned away, a
      logged-in user's request gets its route's verdict and store, and a
      withdrawal is recorded in the name of the logged-in user. */
  function Submit(u: Session, s: Store, req: Request): (r: Response)
    requires Valid(s)
    requires req.EditRequest? ==> NameFreeFor(s, req.edit.id, req.edit.name)
    ensures Valid(r.store)
    ensures r.outcome.Rejected? ==> r.store == s
    ensures LoginGate(u) == Deny ==> r == Response(s, Rejected(LoginRequired))
    ensures |r.store.units| >= |s.units| && r.store.units[..|s.units|] == s.units
    ensures r.outcome == Saved && req.WithdrawRequest? ==>
      && |r.store.withdrawals| == |s.withdrawals| + 1
      && r.store.withdrawals[|s.withdrawals|].responsible == u.username
      && r.store.withdrawals[|s.withdrawals|].status == PendingStatus
    ensures u.LoggedIn? && req.AddRequest? ==>
      && (r.outcome == Saved <==> Add(s, req.add).Ok?)
      && (r.outcome == Saved ==> r.store == Add(s, req.add).value)
      && (r.outcome.Rejected? ==> r.outcome.error == Add(s, req.add).error)
    ensures u.LoggedIn? && req.EditRequest? ==>
      && (r.outcome == Saved <==> Edit(s, req.edit).Ok?)
      && (r.outcome == Saved ==> r.store == Edit(s, req.edit).value)
      && (r.outcome.Rejected? ==> r.outcome.error == Edit(s, req.edit).error)
    ensures u.LoggedIn? && req.WithdrawRequest? ==>
      (r.outcome == Saved <==> Feasible(s.products, Lines(req.withdrawal)))
  {
    if LoginGate(u) == Deny then Response(s, Rejected(LoginRequired))
    else match req
      case AddRequest(f) =>
        Commit(s, Add(s, f))
      case EditRequest(f) =>
        Commit(s, Edit(s, f))
      case WithdrawRequest(f) =>
        WithdrawOutcome(s, u.username, f);
        Commit(s, Withdraw(s, u.username, f))
  }

  /** A logged-in user's withdrawal that is not feasible as a whole (an
      unknown product, a non-positive quantity, or more demand for a product
      than its stock) is rolled back entirely: no stock changes and no
      withdrawal or item is recorded. */
  lemma WithdrawRollsBack(u: Session, s: Store, form: WithdrawalForm)
    requires Valid(s)
    requires u.LoggedIn?
    requires !Feasible(s.products, Lines(form))
    ensures Submit(u, s, WithdrawRequest(form)).outcome.Rejected?
    ensures Submit(u, s, WithdrawRequest(form)).store == s
  {
    WithdrawOutcome(s, u.username, form);
  }
}

=== FILE: withdrawals.dfy ===
/** The withdrawal route: an all-or-nothing batch of (product, quantity)
    lines, checked in order against the stock that earlier lines of the same
    batch have already reduced. */
module Withdrawals {
  import opened Wrappers
  import opened Inventory

  /** One submitted line; `None` stands for a field left blank. */
  datatype Line = Line(productId: Option<ProductId>, quantity: Option<int>)

  /** The typed fields of the withdrawal form: two parallel lists. */
  datatype WithdrawalForm = WithdrawalForm(
    destination: string,
    ticket: string,
    productIds: seq<Option<ProductId>>,
    quantities: seq<Option<int>>)

  /** The lines of the form, paired positionally; the longer list's tail is
      dropped, as Python's `zip` does. */
  function Lines(form: WithdrawalForm): (lines: seq<Line>)
    ensures |lines| == if |form.productIds| <= |form.quantities| then |form.productIds| else |form.quantities|
    ensures forall k :: 0 <= k < |lines| ==> lines[k] == Line(form.productIds[k], form.quantities[k])
  {
    var n := if |form.productIds| <= |form.quantities| then |form.productIds| else |form.quantities|;
    seq(n, k requires 0 <= k < n => Line(form.productIds[k], form.quantities[k]))
  }

  /** A line with a blank field is passed over. */
  predicate Skipped(l: Line) {
    l.productId.None? || l.quantity.None?
  }

  /** The working state of a batch: stock so far and the items recorded so far. */
  datatype Batch = Batch(products: map<ProductId, Product>, items: seq<WithdrawnItem>)

  /** The lines in order; the first unknown product or unacceptable quantity
      aborts the whole batch, discarding every earlier decrement. */
  function Process(products: map<ProductId, Product>, lines: seq<Line>): (r: Result<Batch, Error>)
    ensures r.Ok? ==> r.value.products.Keys == products.Keys
    ensures r.Ok? ==> forall id :: id in products ==>
      r.value.products[id] == products[id].(quantity := r.value.products[id].quantity)
    ensures r.Ok? && NonNegative(products) ==> NonNegative(r.value.products)
    ensures r.Err? ==> r.error.ProductNotFound? || r.error.InvalidWithdrawal?
    decreases |lines|
  {
    if |lines| == 0 then Ok(Batch(products, []))
    else if Skipped(lines[0]) then Process(products, lines[1..])
    else
      var id := lines[0].productId.value;
      var q := lines[0].quantity.value;
      if id !in products then Err(ProductNotFound(id))
      else
        var p := products[id];
        if 0 < q <= p.quantity then
          match Process(products[id := p.(quantity := p.quantity - q)], lines[1..])
          case Err(e) => Err(e)
          case Ok(b) => Ok(Batch(b.products, [WithdrawnItem(p.name, q)] + b.items))
        else Err(InvalidWithdrawal(p.name, q, p.quantity))
  }

  /** The store after the withdrawal form submitted by `responsible`: the
      batch's stock, and one more withdrawal, pending, holding its items. */
  function Withdraw(s: Store, responsible: string, form: WithdrawalForm): (r: Result<Store, Error>)
    requires Valid(s)
    ensures r.Ok? ==> Valid(r.value)
    ensures r.Ok? ==> r.value.units == s.units && r.value.nextId == s.nextId
    ensures r.Ok? ==>
      && |r.value.withdrawals| == |s.withdrawals| + 1
      && r.value.withdrawals[..|s.withdrawals|] == s.withdrawals
      && var w := r.value.withdrawals[|s.withdrawals|];
         w.responsible == responsible && w.destination == form.destination
         && w.ticket == form.ticket && w.status == PendingStatus
  {
    match Process(s.products, Lines(form))
    case Err(e) => Err(e)
    case Ok(b) =>
      var w := Withdrawal(responsible, form.destination, form.ticket, PendingStatus, b.items);
      assert (s.withdrawals + [w])[..|s.withdrawals|] == s.withdrawals;
      Ok(s.(products := b.products, withdrawals := s.withdrawals + [w]))
  }

  // ---------------------------------------------------------------------
  // The batch as a whole

  /** The total quantity the non-skipped lines request of product `id`. */
  function Demand(lines: seq<Line>, id: ProductId): int
    decreases |lines|
  {
    if |lines| == 0 then 0 else LineDemand(lines[0], id) + Demand(lines[1..], id)
  }

  /** The quantity one line requests of product `id`. */
  function LineDemand(l: Line, id: ProductId): int {
    if !Skipped(l) && l.productId.value == id then l.quantity.value else 0
  }

  /** Every non-skipped line names a known product and a positive quantity. */
  ghost predicate WellFormed(products: map<ProductId, Product>, lines: seq<Line>) {
    forall k :: 0 <= k < |lines| && !Skipped(lines[k]) ==>
      lines[k].productId.value in products && lines[k].quantity.value > 0
  }

  /** The batch can be served as a whole: its lines are well formed and no
      product is asked for more in total than it holds. */
  ghost predicate Feasible(products: map<ProductId, Product>, lines: seq<Line>) {
    && WellFormed(products, lines)
    && forall id :: id in products ==> Demand(lines, id) <= products[id].quantity
  }

  /** The non-skipped lines, in order. */
  function Kept(lines: seq<Line>): (r: seq<Line>)
    ensures |r| <= |lines|
    ensures forall k :: 0 <= k < |r| ==> !Skipped(r[k]) && r[k] in lines
    ensures forall l :: l in r <==> l in lines && !Skipped(l)
    decreases |lines|
  {
    if |lines| == 0 then []
    else if Skipped(lines[0]) then Kept(lines[1..])
    else [lines[0]] + Kept(lines[1..])
  }

  lemma {:induction false} DemandNonNegative(products: map<ProductId, Product>, lines: seq<Line>, id: ProductId)
    requires WellFormed(products, lines)
    ensures Demand(lines, id) >= 0
    decreases |lines|
  {
    if |lines| > 0 {
      assert WellFormed(products, lines[1..]) by {
        forall k | 0 <= k < |lines[1..]| && !Skipped(lines[1..][k])
          ensures lines[1..][k].productId.value in products && lines[1..][k].quantity.value > 0
        {
          assert lines[1..][k] == lines[k + 1];
        }
      }
      DemandNonNegative(products, lines[1..], id);
    }
  }

  lemma WellFormedTail(products: map<ProductId, Product>, other: map<ProductId, Product>, lines: seq<Line>)
    requires |lines| > 0
    requires products.Keys == other.Keys
    ensures WellFormed(products, lines) ==> WellFormed(other, lines[1..])
    ensures WellFormed(other, lines[1..]) && (!Skipped(lines[0]) ==>
              lines[0].productId.value in products && lines[0].quantity.value > 0)
            ==> WellFormed(products, lines)
  {
  }

  /** Checking the lines one at a time against the running stock accepts
      the batch exactly when it is feasible as a whole: every non-skipped
      line names a known product with a positive quantity, and each
      product's total demand stays within its stock. */
  lemma {:induction false} ProcessSucceedsIff(products: map<ProductId, Product>, lines: seq<Line>)
    requires NonNegative(products)
    ensures Process(products, lines).Ok? <==> Feasible(products, lines)
    decreases |lines|
  {
    if |lines| == 0 {
    } else {
      var rest := lines[1..];
      WellFormedTail(products, products, lines);
      if Skipped(lines[0]) {
        ProcessSucceedsIff(products, rest);
      } else {
        var id := lines[0].productId.value;
        var q := lines[0].quantity.value;
        if id !in products {
        } else {
          var p := products[id];
          if 0 < q <= p.quantity {
            var next := products[id := p.(quantity := p.quantity - q)];
            ProcessSucceedsIff(next, rest);
            WellFormedTail(products, next, lines);
            assert Feasible(products, lines) <==> Feasible(next, rest) by {
              if WellFormed(products, lines) {
                forall x | x in products
                  ensures Demand(lines, x) <= products[x].quantity <==> Demand(rest, x) <= next[x].quantity
                {
                }
              }
            }
          } else if q > 0 {
            if WellFormed(products, lines) {
              DemandNonNegative(products, rest, id);
            }
          }
        }
      }
    }
  }

  /** A completed batch lowers each product's stock by exactly its total
      demand and changes nothing else about it. */
  lemma {:induction false} ProcessStock(products: map<ProductId, Product>, lines: seq<Line>)
    requires Process(products, lines).Ok?
    ensures var after := Process(products, lines).value.products;
      forall id :: id in products ==>
        after[id] == products[id].(quantity := products[id].quantity - Demand(lines, id))
    decreases |lines|
  {
    if |lines| > 0 {
      var rest := lines[1..];
      if Skipped(lines[0]) {
        ProcessStock(products, rest);
      } else {
        var id := lines[0].productId.value;
        var p := products[id];
        var next := products[id := p.(quantity := p.quantity - lines[0].quantity.value)];
        ProcessStock(next, rest);
      }
    }
  }

  /** A completed batch records one item per non-skipped line, in order,
      carrying that line's quantity and the product's name at the time of
      the withdrawal. */
  lemma {:induction false} ProcessItems(products: map<ProductId, Product>, lines: seq<Line>)
    requires Process(products, lines).Ok?
    ensures var items := Process(products, lines).value.items;
      && |items| == |Kept(lines)|
      && forall k :: 0 <= k < |items| ==>
           var l := Kept(lines)[k];
           && l.productId.value in products
           && items[k] == WithdrawnItem(products[l.productId.value].name, l.quantity.value)
           && items[k].quantity > 0
    decreases |lines|
  {
    if |lines| > 0 {
      var rest := lines[1..];
      if Skipped(lines[0]) {
        ProcessItems(products, rest);
      } else {
        var id := lines[0].productId.value;
        var p := products[id];
        var next := products[id := p.(quantity := p.quantity - lines[0].quantity.value)];
        ProcessItems(next, rest);
        var items := Process(products, lines).value.items;
        var tail := Process(next, rest).value.items;
        assert items == [WithdrawnItem(p.name, lines[0].quantity.value)] + tail;
        assert Kept(lines) == [lines[0]] + Kept(rest);
        forall k | 0 <= k < |items|
          ensures var l := Kept(lines)[k];
            && l.productId.value in products
            && items[k] == WithdrawnItem(products[l.productId.value].name, l.quantity.value)
            && items[k].quantity > 0
        {
          if k > 0 {
            assert items[k] == tail[k - 1];
            assert Kept(lines)[k] == Kept(rest)[k - 1];
          }
        }
      }
    }
  }

  /** Line `k` is where the batch fails with `e`: it is not skipped, and
      either its product is unknown and `e` names that id, or its quantity is
      not within the stock left after the earlier lines and `e` names the
      product, the requested quantity and that remaining stock. */
  ghost predicate FailsAt(products: map<ProductId, Product>, lines: seq<Line>, k: nat, e: Error) {
    && k < |lines|
    && !Skipped(lines[k])
    && var id := lines[k].productId.value;
       var q := lines[k].quantity.value;
       if id !in products then e == ProductNotFound(id)
       else
         var left := products[id].quantity - Demand(lines[..k], id);
         e == InvalidWithdrawal(products[id].name, q, left) && !(0 < q <= left)
  }

  /** Line `j` does not stop the batch: it is skipped, or its product is known
      and its quantity is within the stock left after the earlier lines. */
  ghost predicate PassesAt(products: map<ProductId, Product>, lines: seq<Line>, j: nat) {
    && j < |lines|
    && (Skipped(lines[j]) ||
        var id := lines[j].productId.value;
        var q := lines[j].quantity.value;
        id in products && 0 < q <= products[id].quantity - Demand(lines[..j], id))
  }

  lemma DemandPrefix(lines: seq<Line>, k: nat, id: ProductId)
    requires k < |lines|
    ensures Demand(lines[..k + 1], id) == LineDemand(lines[0], id) + Demand(lines[1..][..k], id)
  {
    assert lines[..k + 1][1..] == lines[1..][..k];
  }

  /** A rejected batch reports the first line that fails against the running
      stock, every earlier line passing: an unknown product by its id, an unacceptable quantity by the
      product's name, the quantity asked for and the stock that earlier lines
      of the batch had left. */
  lemma {:induction false} ProcessReportsFailingLine(products: map<ProductId, Product>, lines: seq<Line>)
    requires Process(products, lines).Err?
    ensures exists k: nat ::
      && FailsAt(products, lines, k, Process(products, lines).error)
      && forall j :: 0 <= j < k ==> PassesAt(products, lines, j)
    decreases |lines|
  {
    var e := Process(products, lines).error;
    var rest := lines[1..];
    if Skipped(lines[0]) {
      ProcessReportsFailingLine(products, rest);
      var k: nat :| FailsAt(products, rest, k, e) && forall j :: 0 <= j < k ==> PassesAt(products, rest, j);
      DemandPrefix(lines, k, rest[k].productId.value);
      assert lines[k + 1] == rest[k];
      assert FailsAt(products, lines, k + 1, e);
      forall j | 0 <= j < k + 1
        ensures PassesAt(products, lines, j)
      {
        if j > 0 {
          assert PassesAt(products, rest, j - 1);
          assert lines[j] == rest[j - 1];
          if !Skipped(lines[j]) {
            DemandPrefix(lines, j - 1, lines[j].productId.value);
          }
        }
      }
    } else {
      var id := lines[0].productId.value;
      var q := lines[0].quantity.value;
      assert lines[..0] == [];
      if id !in products || !(0 < q <= products[id].quantity) {
        assert FailsAt(products, lines, 0, e);
      } else {
        var p := products[id];
        var next := products[id := p.(quantity := p.quantity - q)];
        assert Process(products, lines) == Process(next, rest);
        ProcessReportsFailingLine(next, rest);
        var k: nat :| FailsAt(next, rest, k, e) && forall j :: 0 <= j < k ==> PassesAt(next, rest, j);
        DemandPrefix(lines, k, rest[k].productId.value);
        assert lines[k + 1] == rest[k];
        assert FailsAt(products, lines, k + 1, e);
        forall j | 0 <= j < k + 1
          ensures PassesAt(products, lines, j)
        {
          if j > 0 {
            assert PassesAt(next, rest, j - 1);
            assert lines[j] == rest[j - 1];
            if !Skipped(lines[j]) {
              DemandPrefix(lines, j - 1, lines[j].productId.value);
            }
          }
        }
      }
    }
  }

  /** The route is accepted exactly when the zipped batch is feasible; a
      rejection reports the first failing line; an
      accepted withdrawal lowers each product's stock by its total demand,
      never below zero, and its record holds one item per non-skipped line. */
  lemma WithdrawOutcome(s: Store, responsible: string, form: WithdrawalForm)
    requires Valid(s)
    ensures Withdraw(s, responsible, form).Ok? <==> Feasible(s.products, Lines(form))
    ensures Withdraw(s, responsible, form).Err? ==>
      exists k: nat ::
        && FailsAt(s.products, Lines(form), k, Withdraw(s, responsible, form).error)
        && forall j :: 0 <= j < k ==> PassesAt(s.products, Lines(form), j)
    ensures Withdraw(s, responsible, form).Ok? ==>
      var r := Withdraw(s, responsible, form).value;
      var lines := Lines(form);
      var items := r.withdrawals[|s.withdrawals|].items;
      && r.products.Keys == s.products.Keys
      && (forall id :: id in s.products ==>
            && r.products[id] == s.products[id].(quantity := s.products[id].quantity - Demand(lines, id))
            && r.products[id].quantity >= 0)
      && |items| == |Kept(lines)|
      && (forall k :: 0 <= k < |items| ==>
            var l := Kept(lines)[k];
            && l.productId.value in s.products
            && items[k] == WithdrawnItem(s.products[l.productId.value].name, l.quantity.value)
            && items[k].quantity > 0)
  {
    ProcessSucceedsIff(s.products, Lines(form));
    if Process(s.products, Lines(form)).Ok? {
      ProcessStock(s.products, Lines(form));
      ProcessItems(s.products, Lines(form));
    } else {
      ProcessReportsFailingLine(s.products, Lines(form));
    }
  }
}

=== FILE: wrappers.dfy ===
/** Option and Result types shared by the inventory operations. */
module Wrappers {

  /** A value that may be absent: a blank form field, a search that found nothing. */
  datatype Option<+T> = None | Some(value: T)

  /** The outcome of an operation that either succeeds with a value or is
      rejected with an error. */
  datatype Result<+T, +E> = Ok(value: T) | Err(error: E)
}
